=== FILE: README.md ===
# Reason poll: a Dafny model

A model of the deterministic core of a small poll web application in which
users vote on an option and give a free-text reason, and the results page
shows vote tallies with a per-option sentiment and keyword summary. The model
covers:

- the poll options codec: the admin form's comma-separated field is parsed
  into trimmed, non-blank options, stored joined by commas, and read back by
  `Poll.get_options_list` (`poll_options.dfy`, built on Python's `strip`,
  `split` and `join` in `strings.dfy`);
- the results tally: one pass over a poll's responses filling the vote
  count, sentiment counters and reasons per option (`tally.dfy`);
- the register, vote and create-poll handlers as transitions on an
  in-memory database, and the results page (`app.dfy`). The invariant they
  keep covers unique usernames, the first user as the only admin, admin-only
  polls and one response per user and poll;
- reason analysis: threshold classification of a polarity score, noun
  keywords with order-preserving de-duplication and truncation, and the
  per-option summary with its dominant label (`analysis.dfy`, `seqs.dfy`).

The NLP library's polarity scorer and part-of-speech tagger are inputs: a
value `Nlp(polarity, tags)` of two arbitrary functions. The logged-in user
is an input too: the session's user id, if there is one. A handler that
refuses a request returns the database unchanged, with the reason as an
`Error`.

## Model

| member | source | states |
|---|---|---|
| `Strings.Strip` | app.py:123 | `str.strip()` as used on the reason, each options segment and each stored segment; never lengthens its input |
| `Strings.StripSpec` | app.py:149 | `str.strip()`: the result has no leading or trailing whitespace, is empty exactly when the input is all whitespace, and leaves an already-trimmed string alone |
| `Strings.StripInfix` | app.py:149 | the trimmed string is a contiguous piece of the input, and everything cut from either end is whitespace |
| `Strings.StripAddsNothing` | models.py:35 | trimming never introduces a character, so a comma-free segment stays comma-free |
| `Strings.Join` | app.py:153 | `sep.join(parts)`: a single part is joined to itself; with `Split` it forms the round trip below |
| `Strings.Split` | models.py:35 | `str.split(',')` always yields at least one segment, and no segment contains the separator |
| `Strings.JoinSplit` | models.py:35 | joining the segments of `s.split(d)` with `d` gives back `s` |
| `Strings.SplitJoin` | app.py:153 | splitting `d.join(parts)` gives back `parts` when there is at least one part and no part contains `d` |
| `Strings.SplitSegmentCount` | models.py:35 | a string splits into one segment more than it has separators |
| `Strings.LowerChar` | analysis.py:39 | an ASCII capital becomes the small letter at the same alphabet position; any other character is unchanged |
| `Strings.Lower` | analysis.py:39 | `str.lower()`: same length, each ASCII capital replaced by the small letter at the same alphabet position and every other character kept, so no ASCII capital remains |
| `Strings.LowerIdempotent` | analysis.py:39 | lower-casing twice is the same as once |
| `Seqs.Dedupe` | analysis.py:41-42 | the seen-set comprehension keeps no duplicates and keeps every element of the input |
| `Seqs.DedupeFirstOccurrenceOrder` | analysis.py:41-42 | the kept elements come in the order of their first occurrence in the input |
| `Seqs.DedupeOfDistinct` | analysis.py:41-42 | a duplicate-free list passes through unchanged |
| `Seqs.DedupeIdempotent` | analysis.py:41-42 | de-duplicating twice is the same as once |
| `Seqs.DedupeWithSeen` | analysis.py:41-42 | the single pass with a `seen` set computes the de-duplication |
| `Seqs.Take` | analysis.py:43 | `xs[:n]` is the prefix of length `min(n, len(xs))` |
| `Analysis.Classify` | analysis.py:32-34 | polarity above 0.1 is Positive, below -0.1 is Negative, and anything in between, bounds included, is Neutral; these three cases exclude each other |
| `Analysis.ClassifyMonotone` | analysis.py:32-34 | a higher polarity never gets a lower label |
| `Analysis.AnalyzeSentiment` | analysis.py:28-34 | empty text is Neutral without scoring; otherwise the label follows the score's thresholds |
| `Analysis.Nouns` | analysis.py:40 | a word is among the nouns exactly when some tagged token has that word and a tag starting with `NN` |
| `Analysis.NounsSingle` | analysis.py:40 | one token contributes its word exactly when its tag starts with `NN` |
| `Analysis.NounsAppend` | analysis.py:40 | the nouns of two runs of tokens are the first run's nouns followed by the second's: tagger order and duplicates are kept |
| `Analysis.ExtractKeywords` | analysis.py:36-43 | empty text gives no keywords; otherwise at most `n` keywords, no duplicates, each a noun of the lower-cased text |
| `Analysis.KeywordsAreFirstDistinctNouns` | analysis.py:40-43 | the keywords follow first-occurrence order, number `min(n, distinct nouns)`, and every noun left out first occurs after every keyword |
| `Analysis.SentimentsOf` | analysis.py:13 | one label per reason, in the reasons' order, each the reason's own `analyze_sentiment` label |
| `Analysis.FirstMaxIndex` | analysis.py:15 | picks a candidate with the highest count, and no earlier candidate has that count |
| `Analysis.Dominant` | analysis.py:13-15 | the dominant label occurs among the reasons' labels and its count is at least every other label's |
| `Analysis.DominantTieBreak` | analysis.py:14-15 | on a tie the dominant label is the one that occurs first among the reasons |
| `Analysis.GenerateOptionSummary` | analysis.py:5-26 | no reasons gives the fixed "did not provide specific reasons" message; otherwise a dominant label as above and, as keywords, the first 3 distinct nouns of the reasons joined with `". "` |
| `Models.NewUser` | models.py:14 | a user created without a role gets the `user` role, and one created with a role gets that role |
| `PollOptions.KeepNonBlank` | app.py:149 | every kept option is non-empty and trimmed, and there are no more options than segments |
| `PollOptions.KeepNonBlankSource` | app.py:149 | every parsed option is the trim of some segment |
| `PollOptions.KeepNonBlankKeeps` | app.py:149 | every segment that is not all whitespace appears trimmed among the options |
| `PollOptions.KeepNonBlankAppend` | app.py:149 | parsing works segment by segment in input order: it distributes over concatenation of segment lists |
| `PollOptions.KeepNonBlankKeepsAll` | app.py:149 | when no segment is blank, every segment is kept, trimmed, at its own position |
| `PollOptions.ParseOptions` | app.py:149 | parsed options are non-empty, trimmed and comma-free, at most one per segment |
| `PollOptions.Serialize` | app.py:153 | `','.join(options)`: a single option is stored as itself; `OptionsRoundTrip` reads every stored list back |
| `PollOptions.GetOptionsList` | models.py:34-35 | one entry per comma-separated segment, so at least one; each is the trimmed segment at the same position, with no surrounding whitespace and no comma |
| `PollOptions.OptionsRoundTrip` | models.py:34-35 | reading back the comma-join of a non-empty list of clean options gives the list itself |
| `PollOptions.ParseSerialized` | app.py:149-153 | parsing the comma-join of clean options gives the options back, even for the empty list |
| `PollOptions.StoredOptionsReadBack` | app.py:149-153 | whenever parsing yields at least one option, what is stored reads back as exactly the parsed list |
| `PollOptions.ParseIdempotent` | app.py:149-153 | parsing the stored form of a parse gives the same parse |
| `Tally.Init` | app.py:41-43 | every map has exactly the poll's options as keys, starting at 0, all-zero counters and no reasons |
| `Tally.Record` | app.py:45-50 | a response whose option is not listed changes no map; otherwise entries of other options do not change |
| `Tally.VotesFor` | app.py:46-47 | an option gets at most one vote per response |
| `Tally.SentimentsPartitionVotes` | app.py:47-48 | the three label counts of an option add up to its vote count |
| `Tally.RecordMatches` | app.py:45-50 | one more turn of the loop keeps every map equal to its reference count over the responses read so far |
| `Tally.RecordCountsListed` | app.py:45-47 | one more turn of the loop adds one to the vote total exactly when the response names a listed option |
| `Tally.TallyStep` | app.py:45-50 | one turn of the loop keeps the maps equal to the reference counts and the vote total equal to the number of listed responses read so far |
| `Tally.TallyResponses` | app.py:45-50 | vote counts, label counts and reasons (non-empty, in response order) match their reference definitions per option; each option's label counters add up to its votes; the votes add up to the number of responses naming a listed option |
| `App.FindUser` | app.py:28 | finds a user with the id, or reports that none has it |
| `App.FindPoll` | app.py:36 | finds a poll with the id, or reports that none has it |
| `App.CurrentUser` | app.py:26-28 | the logged-in user is the stored user whose id the session holds, and there is none without a session |
| `App.NameTaken` | app.py:74-75 | some stored user already has the username |
| `App.HasVoted` | app.py:117-118 | some stored response is by that user on that poll |
| `App.EmptyDbValid` | app.py:30-31 | the freshly created database satisfies the invariant |
| `App.Register` | app.py:68-85 | a logged-in user or a taken username is refused with nothing stored; otherwise exactly one user is added, and it is an admin exactly when there were no users |
| `App.RegisterKeepsValid` | app.py:74-79 | registering keeps usernames unique and the first user the only admin |
| `App.FirstUserIsAdmin` | app.py:78 | the first registration gets the admin role and the second the user role |
| `App.ReasonText` | app.py:123 | the stored reason is the sent reason text with surrounding whitespace removed, and empty when the form sends none |
| `App.Vote` | app.py:113-137 | refused with nothing stored, each with its own error: without a login, for an unknown poll, after an earlier response by the same user to the same poll, or without an option; otherwise exactly one response is added with the user, poll, option, trimmed reason and its analysis |
| `App.VoteKeepsValid` | app.py:117-135 | voting keeps at most one response per user and poll |
| `App.AddResponseKeepsValid` | app.py:130-135 | adding a fresh response for an existing user and poll that has no response from that user keeps the invariant |
| `App.SecondVoteRefused` | app.py:117-120 | after an accepted vote, the same user's next vote on that poll is refused and changes nothing |
| `App.CreatePoll` | app.py:140-157 | refused with nothing stored, each with its own error: without a login, for a non-admin, for a missing options field, or without a question and two non-blank options; otherwise one poll is added whose stored options are the comma-join of the parsed list and read back as that list |
| `App.CreatePollKeepsValid` | app.py:146-155 | creating a poll keeps every stored poll admin-created with at least two clean options |
| `App.AddPollKeepsValid` | app.py:153-155 | adding a fresh admin-created poll with two or more clean options keeps the invariant |
| `App.OnlyFirstUserCreatesPolls` | app.py:143-145 | in a valid database only the first registered user can create a poll |
| `App.PollResponses` | app.py:37 | the poll's responses: only responses with that poll id, and every one of them; with `FilterPollAppend` and `FilterPollSingle` their number and order are those of the table |
| `App.FilterPoll` | app.py:37 | the result holds only responses with that poll id, and every one of them |
| `App.FilterPollAppend` | app.py:37-38 | filtering works response by response in table order: the filter of two runs is the first run's filter followed by the second's, so the count `total_votes` and the order of reasons follow the table |
| `App.FilterPollSingle` | app.py:37 | one response is kept exactly when it belongs to the poll |
| `App.ShowResults` | app.py:34-64 | unknown poll is not found; otherwise the total is the number of the poll's responses; the tally is keyed by the stored options, each option's votes, label counts and reasons equal their reference counts, and the votes over them add up to no more than the total; each option's summary is made from its reasons |

## Left out

- Flask routing, templates, flash messages, redirects and the GET forms of `vote` and `admin`: only the POST handling is modelled, and a refusal is an `Error` value.
- How a refusal reaches the browser: `PollNotFound` is a 404 page from `get_or_404`, and `MissingOptionsField` is a server error in the source, because `None.split(',')` raises; the model returns both as ordinary refusals that leave the database unchanged.
- `login`, `logout` and `home`: they only check a password, change the session or list polls by creation time.
- Password hashing in `User.set_password` and `check_password`: a foreign cryptographic call.
- The session and `login_manager`: the logged-in user is an input, the session's user id.
- SQLAlchemy persistence, `created_at` and `timestamp`: the tables are sequences in insertion order, and ids are positions starting at 1. `poll.responses` is taken to be in insertion order, which decides the order of reasons and so the summaries.
- Column length limits (`String(80)` and the like): the database does not enforce them here either.
- `App.Register`: it always passes a role to `Models.NewUser`, so the `'user'` column default never applies there. The username is always a string. A form without a username or password field fails in the database or the hasher, and that is not modelled.
- TextBlob's tokenizer, polarity scorer and tagger: they are the arbitrary functions of `Nlp`.
- `Analysis.Classify`: polarity is a real number compared against exactly 1/10 and -1/10. The source compares binary floating point values. A score equal to the double nearest 0.1 is Neutral there, but Positive here; a score equal to the double nearest -0.1 is Neutral there, but Negative here.
- `Strings.Lower`: only ASCII letters are lower-cased. Python's `str.lower` maps all of Unicode.
- `Analysis.GenerateOptionSummary`: the sentence built around the dominant label and keywords is not modelled. The empty-reasons message is modelled.
- `json.dumps` of the tallies for the charts.
- A sentiment column holding a label other than the three: `vote` always stores a label from `analyze_sentiment`, so the model types it as one of the three. The source would raise `KeyError` in `results` for any other label.
- The race between the duplicate-vote check and the insert under concurrent requests: the model is sequential.
- Cascade deletion of a poll's responses: no handler deletes anything.

=== FILE: analysis.dfy ===
/**
 The reason-analysis helpers: a three-way sentiment label from a polarity
 score, noun keywords from part-of-speech tags, and the per-option summary
 shown on the results page. The NLP library's polarity scorer and tagger
 are abstract inputs (`Nlp`); everything done with their outputs is modelled.
 */
module Analysis {
  import opened Seqs
  import opened Strings

  datatype Sentiment = Positive | Negative | Neutral

  /** A `(word, tag)` pair of the part-of-speech tagger. */
  datatype TaggedWord = TaggedWord(word: string, tag: string)

  /**
   The NLP library as seen by the application: a polarity score in
   [-1, 1] for a text and the part-of-speech tags of a text's words.
   */
  datatype Nlp = Nlp(polarity: string -> real, tags: string -> seq<TaggedWord>)

  /** Polarity strictly above this is positive. */
  const PositiveThreshold: real := 0.1
  /** Polarity strictly below this is negative. */
  const NegativeThreshold: real := -0.1

  /** Rank of a label on the negative-to-positive scale. */
  function Rank(s: Sentiment): int {
    match s
    case Negative => -1
    case Neutral => 0
    case Positive => 1
  }

  /** The threshold classification of a polarity score. */
  function Classify(p: real): (s: Sentiment)
    ensures s == Positive <==> p > PositiveThreshold
    ensures s == Negative <==> p < NegativeThreshold
    ensures s == Neutral <==> NegativeThreshold <= p <= PositiveThreshold
  {
    if p > PositiveThreshold then Positive
    else if p < NegativeThreshold then Negative
    else Neutral
  }

  /** A higher polarity never gets a lower label. */
  lemma ClassifyMonotone(p: real, q: real)
    requires p <= q
    ensures Rank(Classify(p)) <= Rank(Classify(q))
  {
  }

  /** `analyze_sentiment`: empty text is neutral without consulting the scorer. */
  function AnalyzeSentiment(nlp: Nlp, text: string): (s: Sentiment)
    ensures text == [] ==> s == Neutral
    ensures text != [] ==> (s == Positive <==> nlp.polarity(text) > PositiveThreshold)
    ensures text != [] ==> (s == Negative <==> nlp.polarity(text) < NegativeThreshold)
  {
    if text == [] then Neutral else Classify(nlp.polarity(text))
  }

  /** Penn Treebank noun tags: `NN`, `NNS`, `NNP`, `NNPS` (`tag.startswith('NN')`). */
  predicate IsNounTag(tag: string) {
    |tag| >= 2 && tag[0] == 'N' && tag[1] == 'N'
  }

  /** The words tagged as nouns, in tagger order, duplicates kept. */
  function Nouns(tags: seq<TaggedWord>): (ws: seq<string>)
    ensures |ws| <= |tags|
    ensures forall w :: w in ws <==> exists k :: 0 <= k < |tags| && tags[k].word == w && IsNounTag(tags[k].tag)
    decreases |tags|
  {
    if |tags| == 0 then []
    else
      var init := Nouns(tags[..|tags| - 1]);
      var last := tags[|tags| - 1];
      assert forall k :: 0 <= k < |tags| - 1 ==> tags[..|tags| - 1][k] == tags[k];
      if IsNounTag(last.tag) then init + [last.word] else init
  }

  /** One token contributes its word exactly when its tag is a noun tag. */
  lemma NounsSingle(t: TaggedWord)
    ensures Nouns([t]) == if IsNounTag(t.tag) then [t.word] else []
  {
  }

  /**
   The comprehension works token by token in tagger order: the nouns of two
   runs of tokens are the nouns of the first run followed by those of the
   second, duplicates kept.
   */
  lemma {:induction false} NounsAppend(a: seq<TaggedWord>, b: seq<TaggedWord>)
    ensures Nouns(a + b) == Nouns(a) + Nouns(b)
    decreases |b|
  {
    if |b| == 0 {
      assert a + b == a;
    } else {
      var b' := b[..|b| - 1];
      NounsAppend(a, b');
      assert (a + b)[..|a + b| - 1] == a + b';
      assert (a + b)[|a + b| - 1] == b[|b| - 1];
    }
  }

  /** The number of keywords `extract_keywords` keeps when the caller does not say. */
  const DefaultKeywordCount: nat := 5

  /**
   `extract_keywords`: the first `n` distinct nouns of the lower-cased
   text, in the order they first occur; nothing for empty text.
   */
  function ExtractKeywords(nlp: Nlp, text: string, n: nat): (ks: seq<string>)
    ensures text == [] ==> ks == []
    ensures |ks| <= n
    ensures NoDup(ks)
    ensures forall i :: 0 <= i < |ks| ==> ks[i] in Nouns(nlp.tags(Lower(text)))
  {
    if text == [] then []
    else Take(Dedupe(Nouns(nlp.tags(Lower(text)))), n)
  }

  /**
   The keywords are exactly the distinct nouns that come first: they are
   ordered by first occurrence, there are as many as `n` allows, and every
   noun left out first occurs after every keyword.
   */
  lemma KeywordsAreFirstDistinctNouns(nlp: Nlp, text: string, n: nat)
    requires text != []
    ensures var nouns := Nouns(nlp.tags(Lower(text)));
            var ks := ExtractKeywords(nlp, text, n);
            && (forall i, j :: 0 <= i < j < |ks| ==> FirstIndex(nouns, ks[i]) < FirstIndex(nouns, ks[j]))
            && |ks| == (if n <= |Dedupe(nouns)| then n else |Dedupe(nouns)|)
            && (forall w, i :: w in nouns && w !in ks && 0 <= i < |ks| ==>
                  FirstIndex(nouns, ks[i]) < FirstIndex(nouns, w))
  {
    var nouns := Nouns(nlp.tags(Lower(text)));
    var d := Dedupe(nouns);
    var ks := ExtractKeywords(nlp, text, n);
    DedupeFirstOccurrenceOrder(nouns);
    assert ks == d[..|ks|];
    forall w, i | w in nouns && w !in ks && 0 <= i < |ks|
      ensures FirstIndex(nouns, ks[i]) < FirstIndex(nouns, w)
    {
      var j :| 0 <= j < |d| && d[j] == w;
      assert d[i] == ks[i];
    }
  }

  /** Labels in the order `analyze_sentiment` produces them for the reasons. */
  function SentimentsOf(nlp: Nlp, reasons: seq<string>): (ss: seq<Sentiment>)
    ensures |ss| == |reasons|
    ensures forall i :: 0 <= i < |reasons| ==> ss[i] == AnalyzeSentiment(nlp, reasons[i])
  {
    seq(|reasons|, i requires 0 <= i < |reasons| => AnalyzeSentiment(nlp, reasons[i]))
  }

  /**
   Position in `cands` of the first element with the highest count in `ss`,
   scanning left to right and replacing the best only on a strictly higher
   count, as Python's `max` does.
   */
  function FirstMaxIndex(cands: seq<Sentiment>, ss: seq<Sentiment>): (k: nat)
    requires |cands| > 0
    ensures k < |cands|
    ensures forall i :: 0 <= i < |cands| ==> CountOf(ss, cands[i]) <= CountOf(ss, cands[k])
    ensures forall i :: 0 <= i < k ==> CountOf(ss, cands[i]) < CountOf(ss, cands[k])
    decreases |cands|
  {
    if |cands| == 1 then 0
    else
      var b := FirstMaxIndex(cands[..|cands| - 1], ss);
      if CountOf(ss, cands[|cands| - 1]) > CountOf(ss, cands[b]) then |cands| - 1 else b
  }

  /**
   `Counter(ss).most_common(1)[0][0]`: the most frequent label; on a tie,
   the one that occurs first in `ss` (a `Counter` keeps first-insertion
   order and `most_common(1)` returns the first maximal entry).
   */
  function Dominant(ss: seq<Sentiment>): (d: Sentiment)
    requires |ss| > 0
    ensures d in ss
    ensures forall s :: CountOf(ss, s) <= CountOf(ss, d)
  {
    var cands := Dedupe(ss);
    var k := FirstMaxIndex(cands, ss);
    assert forall s :: s in ss ==> s in cands by {
      forall s | s in ss ensures s in cands {
        var i :| 0 <= i < |ss| && ss[i] == s;
      }
    }
    cands[k]
  }

  /** Ties go to the label that occurs earliest among the reasons. */
  lemma DominantTieBreak(ss: seq<Sentiment>, s: Sentiment)
    requires |ss| > 0 && s in ss
    requires CountOf(ss, s) == CountOf(ss, Dominant(ss))
    ensures FirstIndex(ss, Dominant(ss)) <= FirstIndex(ss, s)
  {
    var cands := Dedupe(ss);
    var k := FirstMaxIndex(cands, ss);
    assert Dominant(ss) == cands[k];
    var j := CandidateIndex(ss, s);
    if k < j {
      DedupeOrderAt(ss, k, j);
      assert FirstIndex(ss, cands[k]) < FirstIndex(ss, cands[j]);
    } else {
      assert k == j;
      assert Dominant(ss) == s;
    }
  }

  /** Where a label of `ss` sits among its distinct labels. */
  lemma CandidateIndex(ss: seq<Sentiment>, s: Sentiment) returns (j: nat)
    requires s in ss
    ensures j < |Dedupe(ss)| && Dedupe(ss)[j] == s
  {
    var i :| 0 <= i < |ss| && ss[i] == s;
    j :| 0 <= j < |Dedupe(ss)| && Dedupe(ss)[j] == s;
  }

  /** How many keywords a summary lists. */
  const SummaryKeywordCount: nat := 3

  /**
   The per-option summary, without its sentence formatting: either the
   fixed message for an option nobody explained, or the dominant label
   and the keywords to mention.
   */
  datatype OptionSummary =
    | NoReasons(message: string)
    | Overview(dominant: Sentiment, keywords: seq<string>)

  /** `generate_option_summary`. */
  function GenerateOptionSummary(nlp: Nlp, option: string, reasons: seq<string>): (r: OptionSummary)
    ensures r.NoReasons? <==> reasons == []
    ensures r.NoReasons? ==>
      r.message == "Voters selected '" + option + "' but did not provide specific reasons."
    ensures r.Overview? ==>
      && r.dominant in SentimentsOf(nlp, reasons)
      && (forall s :: CountOf(SentimentsOf(nlp, reasons), s) <= CountOf(SentimentsOf(nlp, reasons), r.dominant))
      && |r.keywords| <= SummaryKeywordCount
      && NoDup(r.keywords)
      && (forall i :: 0 <= i < |r.keywords| ==> r.keywords[i] in Nouns(nlp.tags(Lower(Join(". ", reasons)))))
      && r.keywords == ExtractKeywords(nlp, Join(". ", reasons), SummaryKeywordCount)
  {
    if reasons == [] then
      NoReasons("Voters selected '" + option + "' but did not provide specific reasons.")
    else
      Overview(Dominant(SentimentsOf(nlp, reasons)),
               ExtractKeywords(nlp, Join(". ", reasons), SummaryKeywordCount))
  }
}

=== FILE: app.dfy ===
/**
 The request handlers that change or read the database, as transitions on
 an in-memory copy of it: registering, voting, creating a poll, and
 computing a poll's results page. The logged-in user is an input (the
 session's user id, if any); a handler that refuses a request leaves the
 database exactly as it was.
 */
module App {
  import opened Optional
  import opened Seqs
  import opened Strings
  import opened Analysis
  import opened Models
  import opened PollOptions
  import opened Tally

  /** The three tables, each in insertion order. */
  datatype Db = Db(users: seq<User>, polls: seq<Poll>, responses: seq<Response>)

  const EmptyDb: Db := Db([], [], [])

  /**
   Why a handler refused a request. Most refusals are a flash message and a
   redirect; `PollNotFound` is a 404 page, and `MissingOptionsField` is a
   server error in the original (`None.split` raises).
   */
  datatype Error =
    | NotLoggedIn
    | AlreadyLoggedIn
    | UsernameTaken
    | PollNotFound
    | AlreadyVoted
    | NoOptionSelected
    | NotAdmin
    | MissingOptionsField
    | IncompletePoll

  datatype Status = Accepted | Rejected(error: Error)

  /** The database after a request and whether the request was accepted. */
  datatype Outcome = Outcome(db: Db, status: Status)

  // ---------------------------------------------------------------- lookups

  /** `User.query.get(id)`. */
  function FindUser(users: seq<User>, id: nat): (u: Option<User>)
    ensures u.Some? ==> u.value in users && u.value.id == id
    ensures u.None? <==> forall i :: 0 <= i < |users| ==> users[i].id != id
    decreases |users|
  {
    if |users| == 0 then None
    else if users[0].id == id then Some(users[0])
    else FindUser(users[1..], id)
  }

  /** `Poll.query.get(id)`. */
  function FindPoll(polls: seq<Poll>, id: nat): (p: Option<Poll>)
    ensures p.Some? ==> p.value in polls && p.value.id == id
    ensures p.None? <==> forall i :: 0 <= i < |polls| ==> polls[i].id != id
    decreases |polls|
  {
    if |polls| == 0 then None
    else if polls[0].id == id then Some(polls[0])
    else FindPoll(polls[1..], id)
  }

  /** `current_user` once the session's id has been loaded. */
  function CurrentUser(db: Db, session: Option<nat>): (u: Option<User>)
    ensures u.Some? ==> session.Some? && u.value in db.users && u.value.id == session.value
    ensures session.Some? && u.None? ==> forall i :: 0 <= i < |db.users| ==> db.users[i].id != session.value
  {
    if session.None? then None else FindUser(db.users, session.value)
  }

  /** `User.query.filter_by(username=name).first()` finds a row. */
  predicate NameTaken(db: Db, name: string): (taken: bool)
    ensures taken <==> exists u :: u in db.users && u.username == name
  {
    exists i :: 0 <= i < |db.users| && db.users[i].username == name
  }

  /** `Response.query.filter_by(user_id=.., poll_id=..).first()` finds a row. */
  predicate HasVoted(db: Db, userId: nat, pollId: nat): (voted: bool)
    ensures voted <==> exists r :: r in db.responses && r.userId == userId && r.pollId == pollId
  {
    exists i :: 0 <= i < |db.responses| && db.responses[i].userId == userId && db.responses[i].pollId == pollId
  }

  // ------------------------------------------------------------- invariant

  /**
   What the handlers keep true of the database: ids follow insertion
   order, usernames are unique, the first user is the only admin, every
   poll was created by an admin and stores at least two clean options,
   and every response names an existing user and poll, chose a non-empty
   option, and is the only response of that user to that poll.
   */
  ghost predicate Valid(db: Db) {
    && (forall i :: 0 <= i < |db.users| ==> db.users[i].id == i + 1)
    && (forall i :: 0 <= i < |db.polls| ==> db.polls[i].id == i + 1)
    && (forall i :: 0 <= i < |db.responses| ==> db.responses[i].id == i + 1)
    && (forall i, j :: 0 <= i < j < |db.users| ==> db.users[i].username != db.users[j].username)
    && (forall i :: 0 <= i < |db.users| ==> (db.users[i].role == Admin <==> i == 0))
    && (forall i :: 0 <= i < |db.polls| ==> ValidPoll(db.users, db.polls[i]))
    && (forall i :: 0 <= i < |db.responses| ==> ValidResponse(|db.users|, |db.polls|, db.responses[i]))
    && (forall i, j :: 0 <= i < j < |db.responses| ==>
          db.responses[i].userId != db.responses[j].userId || db.responses[i].pollId != db.responses[j].pollId)
  }

  ghost predicate ValidPoll(users: seq<User>, p: Poll) {
    && p.question != []
    && 1 <= p.creatorId <= |users| && users[p.creatorId - 1].role == Admin
    && StoresOptions(p.options)
  }

  /** A stored options string that reads back as two or more clean options and was written from them. */
  ghost predicate StoresOptions(stored: string) {
    && |GetOptionsList(stored)| >= 2
    && AllClean(GetOptionsList(stored))
    && Serialize(GetOptionsList(stored)) == stored
  }

  ghost predicate ValidResponse(userCount: nat, pollCount: nat, r: Response) {
    && 1 <= r.userId <= userCount
    && 1 <= r.pollId <= pollCount
    && r.selectedOption != []
  }

  lemma EmptyDbValid()
    ensures Valid(EmptyDb)
  {
  }

  // -------------------------------------------------------------- register

  /**
   `register` (POST). A logged-in user is sent home; a taken username is
   refused; otherwise one user is added, who is an admin exactly when no
   user existed before.
   */
  function Register(db: Db, session: Option<nat>, username: string): (o: Outcome)
    ensures o.status.Rejected? ==> o.db == db
    ensures o.status == Rejected(AlreadyLoggedIn) <==> CurrentUser(db, session).Some?
    ensures o.status == Rejected(UsernameTaken) <==> CurrentUser(db, session).None? && NameTaken(db, username)
    ensures o.status.Accepted? <==> CurrentUser(db, session).None? && !NameTaken(db, username)
    ensures o.status.Accepted? ==>
      && |o.db.users| == |db.users| + 1
      && o.db.users[..|db.users|] == db.users
      && o.db.users[|db.users|].username == username
      && (o.db.users[|db.users|].role == Admin <==> db.users == [])
      && o.db.polls == db.polls && o.db.responses == db.responses
  {
    if CurrentUser(db, session).Some? then Outcome(db, Rejected(AlreadyLoggedIn))
    else if NameTaken(db, username) then Outcome(db, Rejected(UsernameTaken))
    else
      var role := if |db.users| == 0 then Admin else Member;
      var u := NewUser(|db.users| + 1, username, Some(role));
      Outcome(db.(users := db.users + [u]), Accepted)
  }

  /** Registering keeps the database valid; in particular usernames stay unique. */
  lemma RegisterKeepsValid(db: Db, session: Option<nat>, username: string)
    requires Valid(db)
    ensures Valid(Register(db, session, username).db)
  {
    var o := Register(db, session, username);
    if o.status.Accepted? {
      var db' := o.db;
      assert db'.users == db.users + [db'.users[|db.users|]];
      forall p | p in db.polls
        ensures ValidPoll(db'.users, p)
      {
        assert ValidPoll(db.users, p);
        assert db'.users[p.creatorId - 1] == db.users[p.creatorId - 1];
      }
      forall r | r in db.responses
        ensures ValidResponse(|db'.users|, |db'.polls|, r)
      {
        assert ValidResponse(|db.users|, |db.polls|, r);
      }
    }
  }

  /** The very first registration makes an admin, and every later one a plain user. */
  lemma FirstUserIsAdmin(name: string, later: string)
    requires later != name
    ensures var o1 := Register(EmptyDb, None, name);
            var o2 := Register(o1.db, None, later);
            && o1.status.Accepted? && o1.db.users == [User(1, name, Admin)]
            && o2.status.Accepted? && o2.db.users[1] == User(2, later, Member)
  {
    var o1 := Register(EmptyDb, None, name);
    assert !NameTaken(o1.db, later);
  }

  // ------------------------------------------------------------------ vote

  /** The reason as `vote` reads it: `request.form.get("reason", "").strip()`. */
  function ReasonText(reasonField: Option<string>): (reason: string)
    ensures IsStripped(reason)
    ensures reasonField.None? ==> reason == []
    ensures reasonField.Some? ==> reason == Strip(reasonField.value)
  {
    StripSpec(reasonField.GetOr([]));
    Strip(reasonField.GetOr([]))
  }

  /**
   `vote` (POST). It needs a logged-in user and an existing poll, refuses a
   second response by the same user to the same poll and a missing or
   empty option, and otherwise adds exactly one response carrying the
   trimmed reason, its sentiment and its keywords. The option itself is not
   checked against the poll's list.
   */
  function Vote(db: Db, session: Option<nat>, pollId: nat, option: Option<string>,
                reasonField: Option<string>, nlp: Nlp): (o: Outcome)
    ensures o.status.Rejected? ==> o.db == db
    ensures o.status == Rejected(NotLoggedIn) <==> CurrentUser(db, session).None?
    ensures o.status == Rejected(PollNotFound) <==>
      CurrentUser(db, session).Some? && FindPoll(db.polls, pollId).None?
    ensures o.status == Rejected(AlreadyVoted) <==>
      && CurrentUser(db, session).Some? && FindPoll(db.polls, pollId).Some?
      && HasVoted(db, session.value, pollId)
    ensures o.status == Rejected(NoOptionSelected) <==>
      && CurrentUser(db, session).Some? && FindPoll(db.polls, pollId).Some?
      && !HasVoted(db, session.value, pollId)
      && (option.None? || option.value == [])
    ensures o.status.Accepted? <==>
      && CurrentUser(db, session).Some? && FindPoll(db.polls, pollId).Some?
      && !HasVoted(db, session.value, pollId)
      && option.Some? && option.value != []
    ensures o.status.Accepted? ==>
      && o.db.users == db.users && o.db.polls == db.polls
      && |o.db.responses| == |db.responses| + 1
      && o.db.responses[..|db.responses|] == db.responses
      && var r := o.db.responses[|db.responses|];
         && r.userId == session.value && r.pollId == pollId
         && r.selectedOption == option.value
         && r.reason == ReasonText(reasonField)
         && r.sentiment == AnalyzeSentiment(nlp, r.reason)
         && r.keywords == Join([Comma], ExtractKeywords(nlp, r.reason, DefaultKeywordCount))
  {
    var user := CurrentUser(db, session);
    if user.None? then Outcome(db, Rejected(NotLoggedIn))
    else if FindPoll(db.polls, pollId).None? then Outcome(db, Rejected(PollNotFound))
    else if HasVoted(db, user.value.id, pollId) then Outcome(db, Rejected(AlreadyVoted))
    else
      var reason := ReasonText(reasonField);
      if option.None? || option.value == [] then Outcome(db, Rejected(NoOptionSelected))
      else
        var keywords := ExtractKeywords(nlp, reason, DefaultKeywordCount);
        var r := Response(|db.responses| + 1, pollId, user.value.id, option.value, reason,
                          AnalyzeSentiment(nlp, reason), Serialize(keywords));
        Outcome(db.(responses := db.responses + [r]), Accepted)
  }

  /** Voting keeps the database valid; in particular one response per user and poll. */
  lemma VoteKeepsValid(db: Db, session: Option<nat>, pollId: nat, option: Option<string>,
                       reasonField: Option<string>, nlp: Nlp)
    requires Valid(db)
    ensures Valid(Vote(db, session, pollId, option, reasonField, nlp).db)
  {
    var o := Vote(db, session, pollId, option, reasonField, nlp);
    if o.status.Accepted? {
      var r := o.db.responses[|db.responses|];
      assert o.db == db.(responses := db.responses + [r]);
      var u := CurrentUser(db, session).value;
      var ui :| 0 <= ui < |db.users| && db.users[ui] == u;
      var p := FindPoll(db.polls, pollId).value;
      var pi :| 0 <= pi < |db.polls| && db.polls[pi] == p;
      AddResponseKeepsValid(db, r);
    }
  }

  /** Appending a fresh response for an existing user and poll keeps the database valid. */
  lemma AddResponseKeepsValid(db: Db, r: Response)
    requires Valid(db)
    requires r.id == |db.responses| + 1 && ValidResponse(|db.users|, |db.polls|, r)
    requires !HasVoted(db, r.userId, r.pollId)
    ensures Valid(db.(responses := db.responses + [r]))
  {
    var db' := db.(responses := db.responses + [r]);
    var rs' := db'.responses;
    assert forall i :: 0 <= i < |db.responses| ==> rs'[i] == db.responses[i];
    forall i | 0 <= i < |rs'|
      ensures rs'[i].id == i + 1 && ValidResponse(|db'.users|, |db'.polls|, rs'[i])
    {
      if i < |db.responses| {
        assert ValidResponse(|db.users|, |db.polls|, db.responses[i]);
      }
    }
    forall i, j | 0 <= i < j < |rs'|
      ensures rs'[i].userId != rs'[j].userId || rs'[i].pollId != rs'[j].pollId
    {
      if j == |db.responses| {
        assert rs'[i] == db.responses[i];
      }
    }
    forall i | 0 <= i < |db.polls|
      ensures ValidPoll(db'.users, db.polls[i])
    {
      assert ValidPoll(db.users, db.polls[i]);
    }
  }

  /** Once a vote is accepted, the same user's next vote on that poll is refused. */
  lemma SecondVoteRefused(db: Db, session: Option<nat>, pollId: nat,
                          option: Option<string>, reasonField: Option<string>,
                          option2: Option<string>, reasonField2: Option<string>, nlp: Nlp)
    requires Vote(db, session, pollId, option, reasonField, nlp).status.Accepted?
    ensures var db' := Vote(db, session, pollId, option, reasonField, nlp).db;
            var o2 := Vote(db', session, pollId, option2, reasonField2, nlp);
            o2.status == Rejected(AlreadyVoted) && o2.db == db'
  {
    var db' := Vote(db, session, pollId, option, reasonField, nlp).db;
    var r := db'.responses[|db.responses|];
    assert db'.users == db.users && db'.polls == db.polls;
    assert HasVoted(db', session.value, pollId) by {
      assert db'.responses[|db.responses|] == r;
    }
  }

  // ------------------------------------------------------------ create poll

  /**
   `admin` (POST). Only a logged-in admin may create a poll. A missing
   options field is an error before anything else is looked at; then the
   poll needs a non-empty question and at least two options that are not
   blank after trimming. The stored options read back as exactly the parsed
   list.
   */
  function CreatePoll(db: Db, session: Option<nat>, question: Option<string>,
                      optionsField: Option<string>): (o: Outcome)
    ensures o.status.Rejected? ==> o.db == db
    ensures o.status == Rejected(NotLoggedIn) <==> CurrentUser(db, session).None?
    ensures o.status == Rejected(NotAdmin) <==>
      CurrentUser(db, session).Some? && CurrentUser(db, session).value.role != Admin
    ensures o.status == Rejected(MissingOptionsField) <==>
      CurrentUser(db, session).Some? && CurrentUser(db, session).value.role == Admin && optionsField.None?
    ensures o.status == Rejected(IncompletePoll) <==>
      && CurrentUser(db, session).Some? && CurrentUser(db, session).value.role == Admin
      && optionsField.Some?
      && (question.None? || question.value == [] || |ParseOptions(optionsField.value)| < 2)
    ensures o.status.Accepted? <==>
      && CurrentUser(db, session).Some? && CurrentUser(db, session).value.role == Admin
      && optionsField.Some? && |ParseOptions(optionsField.value)| >= 2
      && question.Some? && question.value != []
    ensures o.status.Accepted? ==>
      && o.db.users == db.users && o.db.responses == db.responses
      && |o.db.polls| == |db.polls| + 1
      && o.db.polls[..|db.polls|] == db.polls
      && var p := o.db.polls[|db.polls|];
         && p.question == question.value
         && p.creatorId == session.value
         && p.options == Serialize(ParseOptions(optionsField.value))
         && GetOptionsList(p.options) == ParseOptions(optionsField.value)
  {
    var user := CurrentUser(db, session);
    if user.None? then Outcome(db, Rejected(NotLoggedIn))
    else if user.value.role != Admin then Outcome(db, Rejected(NotAdmin))
    else if optionsField.None? then Outcome(db, Rejected(MissingOptionsField))
    else
      var opts := ParseOptions(optionsField.value);
      if question.None? || question.value == [] || |opts| < 2 then Outcome(db, Rejected(IncompletePoll))
      else
        StoredOptionsReadBack(optionsField.value);
        var p := Poll(|db.polls| + 1, question.value, Serialize(opts), user.value.id);
        Outcome(db.(polls := db.polls + [p]), Accepted)
  }

  /** Creating a poll keeps the database valid. */
  lemma CreatePollKeepsValid(db: Db, session: Option<nat>, question: Option<string>,
                             optionsField: Option<string>)
    requires Valid(db)
    ensures Valid(CreatePoll(db, session, question, optionsField).db)
  {
    var o := CreatePoll(db, session, question, optionsField);
    if o.status.Accepted? {
      var p := o.db.polls[|db.polls|];
      assert o.db == db.(polls := db.polls + [p]);
      var u := CurrentUser(db, session).value;
      var ui :| 0 <= ui < |db.users| && db.users[ui] == u;
      OptionsRoundTrip(ParseOptions(optionsField.value));
      AddPollKeepsValid(db, p);
    }
  }

  /** Appending a fresh poll by an admin with two or more clean options keeps the database valid. */
  lemma AddPollKeepsValid(db: Db, p: Poll)
    requires Valid(db)
    requires p.id == |db.polls| + 1 && ValidPoll(db.users, p)
    ensures Valid(db.(polls := db.polls + [p]))
  {
    var db' := db.(polls := db.polls + [p]);
    var ps' := db'.polls;
    forall i | 0 <= i < |ps'|
      ensures ps'[i].id == i + 1 && ValidPoll(db'.users, ps'[i])
    {
      if i < |db.polls| {
        assert ps'[i] == db.polls[i];
        assert ValidPoll(db.users, db.polls[i]);
      }
    }
    forall i | 0 <= i < |db.responses|
      ensures ValidResponse(|db'.users|, |db'.polls|, db.responses[i])
    {
      assert ValidResponse(|db.users|, |db.polls|, db.responses[i]);
    }
  }

  /** In a valid database only the first registered user can create polls. */
  lemma OnlyFirstUserCreatesPolls(db: Db, session: Option<nat>, question: Option<string>,
                                  optionsField: Option<string>)
    requires Valid(db)
    requires CreatePoll(db, session, question, optionsField).status.Accepted?
    ensures session == Some(1)
  {
    var u := CurrentUser(db, session).value;
    var ui :| 0 <= ui < |db.users| && db.users[ui] == u;
  }

  // --------------------------------------------------------------- results

  /** `poll.responses`: the responses to one poll, in insertion order. */
  function PollResponses(db: Db, pollId: nat): (rs: seq<Response>)
    ensures |rs| <= |db.responses|
    ensures forall i :: 0 <= i < |rs| ==> rs[i] in db.responses && rs[i].pollId == pollId
    ensures forall r :: r in db.responses && r.pollId == pollId ==> r in rs
  {
    FilterPoll(db.responses, pollId)
  }

  function FilterPoll(rs: seq<Response>, pollId: nat): (out: seq<Response>)
    ensures |out| <= |rs|
    ensures forall i :: 0 <= i < |out| ==> out[i] in rs && out[i].pollId == pollId
    ensures forall r :: r in rs && r.pollId == pollId ==> r in out
    decreases |rs|
  {
    if |rs| == 0 then []
    else
      var init := FilterPoll(rs[..|rs| - 1], pollId);
      var last := rs[|rs| - 1];
      assert rs == rs[..|rs| - 1] + [last];
      if last.pollId == pollId then init + [last] else init
  }

  /** Filtering works response by response, in table order. */
  lemma {:induction false} FilterPollAppend(a: seq<Response>, b: seq<Response>, pollId: nat)
    ensures FilterPoll(a + b, pollId) == FilterPoll(a, pollId) + FilterPoll(b, pollId)
    decreases |b|
  {
    if |b| == 0 {
      assert a + b == a;
    } else {
      var b' := b[..|b| - 1];
      FilterPollAppend(a, b', pollId);
      assert (a + b)[..|a + b| - 1] == a + b';
      assert (a + b)[|a + b| - 1] == b[|b| - 1];
    }
  }

  /** One response is kept exactly when it belongs to the poll. */
  lemma FilterPollSingle(r: Response, pollId: nat)
    ensures FilterPoll([r], pollId) == if r.pollId == pollId then [r] else []
  {
  }

  /** What the results page shows. */
  datatype ResultsPage = ResultsPage(
    poll: Poll,
    totalVotes: nat,
    options: seq<string>,
    tally: Tally,
    summaries: map<string, OptionSummary>)

  /**
   `results`: the tally of the poll's responses over its stored options,
   and a summary of each option's reasons. Responses naming an option the
   poll does not list count towards the total only.
   */
  method ShowResults(db: Db, pollId: nat, nlp: Nlp) returns (page: Option<ResultsPage>)
    ensures page.None? <==> FindPoll(db.polls, pollId).None?
    ensures page.Some? ==>
      var pg := page.value;
      var rs := PollResponses(db, pollId);
      && pg.poll == FindPoll(db.polls, pollId).value
      && pg.options == GetOptionsList(pg.poll.options)
      && pg.totalVotes == |rs|
      && Matches(pg.tally, pg.options, rs)
      && (forall o :: o in pg.options ==> pg.tally.sentiments[o].Total() == pg.tally.votes[o])
      && SumOver(pg.tally.votes, Dedupe(pg.options)) <= pg.totalVotes
      && (forall o :: o in pg.summaries <==> o in pg.options)
      && (forall o :: o in pg.options ==>
            pg.summaries[o] == GenerateOptionSummary(nlp, o, ReasonsFor(rs, o)))
  {
    var found := FindPoll(db.polls, pollId);
    if found.None? {
      return None;
    }
    var poll := found.value;
    var rs := PollResponses(db, pollId);
    var options := GetOptionsList(poll.options);
    var t := TallyResponses(options, rs);
    var summaries := map o | o in t.reasons :: GenerateOptionSummary(nlp, o, t.reasons[o]);
    page := Some(ResultsPage(poll, |rs|, options, t, summaries));
  }
}

=== FILE: models.dfy ===
/**
 The three stored entities. Row ids are positive and assigned in insertion
 order; the password hash, the timestamps and the ORM relationships are not
 part of the model.
 */
module Models {
  import opened Optional
  import opened Analysis

  /** The `role` column: `'admin'` or `'user'`. */
  datatype Role = Admin | Member

  datatype User = User(id: nat, username: string, role: Role)

  /** A poll keeps its options as one comma-joined string. */
  datatype Poll = Poll(id: nat, question: string, options: string, creatorId: nat)

  /** One user's vote on one poll, with the analysis of the stated reason. */
  datatype Response = Response(
    id: nat,
    pollId: nat,
    userId: nat,
    selectedOption: string,
    reason: string,
    sentiment: Sentiment,
    keywords: string)

  /**
   `User(username=.., role=..)`: the column default `'user'` applies when no
   role is given. `register` always passes a role, so there the default
   never applies.
   */
  function NewUser(id: nat, username: string, role: Option<Role>): (u: User)
    ensures u.username == username && u.id == id
    ensures role.None? ==> u.role == Member
    ensures role.Some? ==> u.role == role.value
  {
    User(id, username, role.GetOr(Member))
  }
}

=== FILE: optional.dfy ===
/**
 A value that may be absent: a form field that was not sent, a row that a
 lookup did not find, or a session without a logged-in user.
 */
module Optional {
  datatype Option<T> = None | Some(value: T) {
    /** `d.get(key, default)` once the lookup is done: the value, or `default` when absent. */
    function GetOr(default: T): (v: T)
      ensures Some? ==> v == value
      ensures None? ==> v == default
    {
      match this
      case Some(v) => v
      case None => default
    }
  }
}

=== FILE: poll_options.dfy ===
/**
 The storage format of a poll's options. The admin form's comma-separated
 field is parsed into trimmed, non-blank options, which are stored joined
 by commas; `Poll.get_options_list` splits the stored string and trims
 each segment again.
 */
module PollOptions {
  import opened Seqs
  import opened Strings

  const Comma: char := ','

  /** An option as the admin form stores it: non-empty, trimmed, comma-free. */
  ghost predicate IsCleanOption(o: string) {
    o != [] && IsStripped(o) && Comma !in o
  }

  ghost predicate AllClean(opts: seq<string>) {
    forall i :: 0 <= i < |opts| ==> IsCleanOption(opts[i])
  }

  /** The segments that are not all whitespace, each trimmed, in their order. */
  function KeepNonBlank(segs: seq<string>): (r: seq<string>)
    ensures |r| <= |segs|
    ensures forall i :: 0 <= i < |r| ==> r[i] != [] && IsStripped(r[i])
    decreases |segs|
  {
    if |segs| == 0 then []
    else
      var o := Strip(segs[0]);
      StripSpec(segs[0]);
      var rest := KeepNonBlank(segs[1..]);
      if o == [] then rest else [o] + rest
  }

  /** Every kept option is the trim of some segment. */
  lemma {:induction false} KeepNonBlankSource(segs: seq<string>, i: nat) returns (j: nat)
    requires i < |KeepNonBlank(segs)|
    ensures j < |segs| && KeepNonBlank(segs)[i] == Strip(segs[j])
    decreases |segs|
  {
    var rest := KeepNonBlank(segs[1..]);
    if Strip(segs[0]) == [] {
      assert KeepNonBlank(segs) == rest;
      var j' := KeepNonBlankSource(segs[1..], i);
      j := j' + 1;
      assert segs[1..][j'] == segs[j];
    } else if i == 0 {
      j := 0;
    } else {
      assert KeepNonBlank(segs) == [Strip(segs[0])] + rest;
      assert KeepNonBlank(segs)[i] == rest[i - 1];
      var j' := KeepNonBlankSource(segs[1..], i - 1);
      j := j' + 1;
      assert segs[1..][j'] == segs[j];
    }
  }

  /** Every segment that is not all whitespace is kept, trimmed. */
  lemma {:induction false} KeepNonBlankKeeps(segs: seq<string>, j: nat)
    requires j < |segs| && Strip(segs[j]) != []
    ensures Strip(segs[j]) in KeepNonBlank(segs)
    decreases |segs|
  {
    if j > 0 {
      KeepNonBlankKeeps(segs[1..], j - 1);
    }
  }

  /** Keeping the non-blank segments of two runs of segments keeps each run's. */
  lemma {:induction false} KeepNonBlankAppend(a: seq<string>, b: seq<string>)
    ensures KeepNonBlank(a + b) == KeepNonBlank(a) + KeepNonBlank(b)
    decreases |a|
  {
    if |a| == 0 {
      assert a + b == b;
    } else {
      assert (a + b)[1..] == a[1..] + b;
      assert (a + b)[0] == a[0];
      KeepNonBlankAppend(a[1..], b);
    }
  }

  /** When no segment is blank, every segment is kept, trimmed, in place. */
  lemma {:induction false} KeepNonBlankKeepsAll(segs: seq<string>)
    requires forall i :: 0 <= i < |segs| ==> Strip(segs[i]) != []
    ensures |KeepNonBlank(segs)| == |segs|
    ensures forall i :: 0 <= i < |segs| ==> KeepNonBlank(segs)[i] == Strip(segs[i])
    decreases |segs|
  {
    if |segs| > 0 {
      KeepNonBlankKeepsAll(segs[1..]);
    }
  }

  /**
   The admin form's parsing: `[opt.strip() for opt in raw.split(',') if opt.strip()]`.
   */
  function ParseOptions(raw: string): (opts: seq<string>)
    ensures AllClean(opts)
    ensures |opts| <= CountOf(raw, Comma) + 1
  {
    var segs := Split(raw, Comma);
    SplitSegmentCount(raw, Comma);
    var opts := KeepNonBlank(segs);
    assert forall i :: 0 <= i < |opts| ==> Comma !in opts[i] by {
      forall i | 0 <= i < |opts| ensures Comma !in opts[i] {
        var k := KeepNonBlankSource(segs, i);
        StripAddsNothing(segs[k], Comma);
      }
    }
    opts
  }

  /** The stored form of a list of options: `','.join(options)`. */
  function Serialize(opts: seq<string>): (s: string)
    ensures |opts| == 1 ==> s == opts[0]
  {
    Join([Comma], opts)
  }

  /**
   `Poll.get_options_list`: every comma-separated segment of the stored
   string, trimmed. There is one entry per segment, so at least one.
   */
  function GetOptionsList(stored: string): (opts: seq<string>)
    ensures |opts| == CountOf(stored, Comma) + 1 == |Split(stored, Comma)|
    ensures forall i :: 0 <= i < |opts| ==> IsStripped(opts[i]) && Comma !in opts[i]
    ensures forall i :: 0 <= i < |opts| ==> opts[i] == Strip(Split(stored, Comma)[i])
  {
    var segs := Split(stored, Comma);
    SplitSegmentCount(stored, Comma);
    var opts := seq(|segs|, i requires 0 <= i < |segs| => Strip(segs[i]));
    assert forall i :: 0 <= i < |opts| ==> IsStripped(opts[i]) && Comma !in opts[i] by {
      forall i | 0 <= i < |opts| ensures IsStripped(opts[i]) && Comma !in opts[i] {
        StripSpec(segs[i]);
        StripAddsNothing(segs[i], Comma);
      }
    }
    opts
  }

  /**
   Reading back a stored list gives the list itself, for any non-empty
   list of clean options. (The empty list is stored as `""`, which reads
   back as `[""]`; poll creation never stores fewer than two options.)
   */
  lemma OptionsRoundTrip(opts: seq<string>)
    requires |opts| >= 1 && AllClean(opts)
    ensures GetOptionsList(Serialize(opts)) == opts
  {
    SplitJoin(opts, Comma);
  }

  /** Parsing a stored list also gives the list itself, even when empty. */
  lemma ParseSerialized(opts: seq<string>)
    requires AllClean(opts)
    ensures ParseOptions(Serialize(opts)) == opts
  {
    if |opts| == 0 {
      assert Split(Serialize(opts), Comma) == [""];
      assert AllSpace("");
    } else {
      SplitJoin(opts, Comma);
      KeepNonBlankKeepsAll(opts);
    }
  }

  /**
   What poll creation stores reads back as what it parsed: the options
   field, parsed, serialized and read again, is the parsed list.
   */
  lemma StoredOptionsReadBack(raw: string)
    requires |ParseOptions(raw)| >= 1
    ensures GetOptionsList(Serialize(ParseOptions(raw))) == ParseOptions(raw)
  {
    OptionsRoundTrip(ParseOptions(raw));
  }

  /** Parsing is idempotent through the stored form. */
  lemma ParseIdempotent(raw: string)
    ensures ParseOptions(Serialize(ParseOptions(raw))) == ParseOptions(raw)
  {
    ParseSerialized(ParseOptions(raw));
  }
}

=== FILE: seqs.dfy ===
/**
 Generic sequence helpers shared by the option codec, the keyword extractor
 and the results tally: occurrence counting, first-occurrence lookup, the
 order-preserving de-duplication Python writes with a `seen` set, and slicing
 with Python's `xs[:n]` semantics.
 */
module Seqs {

  /** No element occurs twice. */
  ghost predicate NoDup<T>(xs: seq<T>) {
    forall i, j :: 0 <= i < j < |xs| ==> xs[i] != xs[j]
  }

  /** Number of occurrences of `x` in `xs` (Python's `xs.count(x)`). */
  function CountOf<T(==)>(xs: seq<T>, x: T): (n: nat)
    ensures n <= |xs|
    ensures n == 0 <==> x !in xs
    decreases |xs|
  {
    if |xs| == 0 then 0
    else CountOf(xs[..|xs| - 1], x) + (if xs[|xs| - 1] == x then 1 else 0)
  }

  /** Counting from the front agrees with `CountOf`, which counts from the back. */
  lemma {:induction false} CountOfCons<T>(xs: seq<T>, x: T)
    requires |xs| > 0
    ensures CountOf(xs, x) == (if xs[0] == x then 1 else 0) + CountOf(xs[1..], x)
    decreases |xs|
  {
    if |xs| > 1 {
      var init := xs[..|xs| - 1];
      CountOfCons(init, x);
      assert init[1..] == xs[1..][..|xs[1..]| - 1];
    }
  }

  /** Index of the first occurrence of `x` (Python's `xs.index(x)`). */
  function FirstIndex<T(==)>(xs: seq<T>, x: T): (k: nat)
    requires x in xs
    ensures k < |xs| && xs[k] == x
    ensures forall i :: 0 <= i < k ==> xs[i] != x
    decreases |xs|
  {
    if xs[0] == x then 0 else 1 + FirstIndex(xs[1..], x)
  }

  /** Appending elements after the first occurrence does not move it. */
  lemma {:induction false} FirstIndexPrefix<T>(xs: seq<T>, ys: seq<T>, x: T)
    requires x in xs
    ensures FirstIndex(xs + ys, x) == FirstIndex(xs, x)
    decreases |xs|
  {
    if xs[0] != x {
      assert (xs + ys)[1..] == xs[1..] + ys;
      FirstIndexPrefix(xs[1..], ys, x);
    }
  }

  /**
   Keeps the first occurrence of every element, in input order: the list
   comprehension `[x for x in xs if not (x in seen or seen.add(x))]`.
   Defined by appending one element at a time, as the comprehension does.
   */
  function Dedupe<T(==,!new)>(xs: seq<T>): (r: seq<T>)
    ensures NoDup(r)
    ensures forall x :: x in r <==> x in xs
    ensures |r| <= |xs|
    decreases |xs|
  {
    if |xs| == 0 then []
    else
      var init := xs[..|xs| - 1];
      var x := xs[|xs| - 1];
      var r0 := Dedupe(init);
      if x in init then r0 else r0 + [x]
  }

  /**
   The elements of `Dedupe(xs)` appear in the order of their first
   occurrence in `xs`. Together with `NoDup` and equal membership this
   determines `Dedupe(xs)` completely.
   */
  lemma {:induction false} DedupeFirstOccurrenceOrder<T(!new)>(xs: seq<T>)
    ensures forall i, j :: 0 <= i < j < |Dedupe(xs)| ==>
      FirstIndex(xs, Dedupe(xs)[i]) < FirstIndex(xs, Dedupe(xs)[j])
    decreases |xs|
  {
    if |xs| > 0 {
      var init := xs[..|xs| - 1];
      var x := xs[|xs| - 1];
      assert xs == init + [x];
      DedupeFirstOccurrenceOrder(init);
      var r0 := Dedupe(init);
      var r := Dedupe(xs);
      forall i, j | 0 <= i < j < |r|
        ensures FirstIndex(xs, r[i]) < FirstIndex(xs, r[j])
      {
        assert r[i] == r0[i];
        FirstIndexPrefix(init, [x], r[i]);
        if j < |r0| {
          assert r[j] == r0[j];
          FirstIndexPrefix(init, [x], r[j]);
        } else {
          assert r[j] == x && x !in init;
          assert FirstIndex(xs, x) == |init|;
        }
      }
    }
  }

  /** `DedupeFirstOccurrenceOrder` for one pair of positions. */
  lemma DedupeOrderAt<T(!new)>(xs: seq<T>, i: nat, j: nat)
    requires i < j < |Dedupe(xs)|
    ensures FirstIndex(xs, Dedupe(xs)[i]) < FirstIndex(xs, Dedupe(xs)[j])
  {
    DedupeFirstOccurrenceOrder(xs);
  }

  /** A sequence without duplicates is its own de-duplication. */
  lemma {:induction false} DedupeOfDistinct<T(!new)>(xs: seq<T>)
    requires NoDup(xs)
    ensures Dedupe(xs) == xs
    decreases |xs|
  {
    if |xs| > 0 {
      var init := xs[..|xs| - 1];
      assert NoDup(init);
      DedupeOfDistinct(init);
      assert xs[|xs| - 1] !in init;
      assert xs == init + [xs[|xs| - 1]];
    }
  }

  /** De-duplicating twice is the same as de-duplicating once. */
  lemma DedupeIdempotent<T(!new)>(xs: seq<T>)
    ensures Dedupe(Dedupe(xs)) == Dedupe(xs)
  {
    DedupeOfDistinct(Dedupe(xs));
  }

  /**
   The imperative form of `Dedupe`: one pass over `xs` with a `seen` set,
   keeping an element only the first time it is met.
   */
  method DedupeWithSeen<T(==,!new)>(xs: seq<T>) returns (r: seq<T>)
    ensures r == Dedupe(xs)
    ensures NoDup(r)
    ensures forall x :: x in r <==> x in xs
  {
    var seen: set<T> := {};
    r := [];
    for i := 0 to |xs|
      invariant r == Dedupe(xs[..i])
      invariant seen == set k | 0 <= k < i :: xs[k]
    {
      assert xs[..i + 1][..i] == xs[..i];
      if xs[i] !in seen {
        seen := seen + {xs[i]};
        r := r + [xs[i]];
      }
    }
    assert xs[..|xs|] == xs;
  }

  /** Python's `xs[:n]` for a non-negative `n`. */
  function Take<T>(xs: seq<T>, n: nat): (r: seq<T>)
    ensures |r| == if n <= |xs| then n else |xs|
    ensures r == xs[..|r|]
  {
    if n <= |xs| then xs[..n] else xs
  }
}

=== FILE: strings.dfy ===
/**
 The parts of Python's `str` the application relies on: `strip()` with no
 argument, `split(sep)` on a one-character separator, `sep.join(parts)` and
 `lower()`. Strings are sequences of Unicode scalar values.
 */
module Strings {
  import opened Seqs

  /**
   The characters `str.strip()` removes when called without an argument:
   those for which Python's `str.isspace()` holds.
   */
  predicate IsSpace(c: char) {
    c in {' ', '\t', '\n', '\r', '\U{0B}', '\U{0C}',
          '\U{1C}', '\U{1D}', '\U{1E}', '\U{1F}', '\U{85}', '\U{A0}',
          '\U{1680}', '\U{2028}', '\U{2029}', '\U{202F}', '\U{205F}', '\U{3000}'}
    || ('\U{2000}' <= c <= '\U{200A}')
  }

  ghost predicate AllSpace(s: string) {
    forall i :: 0 <= i < |s| ==> IsSpace(s[i])
  }

  /** Neither the first nor the last character is whitespace. */
  ghost predicate IsStripped(s: string) {
    s == [] || (!IsSpace(s[0]) && !IsSpace(s[|s| - 1]))
  }

  /**
   `s.strip()`: drops whitespace from both ends until neither end is
   whitespace. It never lengthens the string; its other properties are
   stated by the lemmas below.
   */
  function Strip(s: string): (r: string)
    ensures |r| <= |s|
    decreases |s|
  {
    if |s| > 0 && IsSpace(s[0]) then Strip(s[1..])
    else if |s| > 0 && IsSpace(s[|s| - 1]) then Strip(s[..|s| - 1])
    else s
  }

  /**
   The result has no whitespace at either end, is empty exactly when the
   input is all whitespace, and is the input itself when that is already
   trimmed.
   */
  lemma {:induction false} StripSpec(s: string)
    ensures IsStripped(Strip(s))
    ensures Strip(s) == [] <==> AllSpace(s)
    ensures IsStripped(s) ==> Strip(s) == s
    decreases |s|
  {
    if |s| > 0 && IsSpace(s[0]) {
      StripSpec(s[1..]);
      assert AllSpace(s) <==> AllSpace(s[1..]) by {
        assert forall i :: 1 <= i < |s| ==> s[i] == s[1..][i - 1];
      }
    } else if |s| > 0 && IsSpace(s[|s| - 1]) {
      StripSpec(s[..|s| - 1]);
      assert AllSpace(s) <==> AllSpace(s[..|s| - 1]) by {
        assert forall i :: 0 <= i < |s| - 1 ==> s[i] == s[..|s| - 1][i];
      }
    } else if |s| > 0 {
      assert !AllSpace(s) by { assert !IsSpace(s[0]); }
    }
  }

  /**
   The result is a contiguous piece of the input, and everything cut off on
   either side is whitespace: only whitespace is removed, and only at the ends.
   */
  lemma {:induction false} StripInfix(s: string) returns (i: nat, j: nat)
    ensures i <= j <= |s|
    ensures Strip(s) == s[i..j]
    ensures AllSpace(s[..i]) && AllSpace(s[j..])
    decreases |s|
  {
    if |s| > 0 && IsSpace(s[0]) {
      var i', j' := StripInfix(s[1..]);
      i, j := i' + 1, j' + 1;
      InfixAfterFront(s, i', j');
    } else if |s| > 0 && IsSpace(s[|s| - 1]) {
      i, j := StripInfix(s[..|s| - 1]);
      InfixBeforeBack(s, i, j);
    } else {
      i, j := 0, |s|;
    }
  }

  /** A trim of `s[1..]` cut at `i..j` is `s` cut at `i+1..j+1` when `s[0]` is whitespace. */
  lemma InfixAfterFront(s: string, i: nat, j: nat)
    requires |s| > 0 && IsSpace(s[0]) && i <= j <= |s| - 1
    requires AllSpace(s[1..][..i]) && AllSpace(s[1..][j..])
    ensures s[1..][i..j] == s[i + 1..j + 1]
    ensures AllSpace(s[..i + 1]) && AllSpace(s[j + 1..])
  {
    assert s[j + 1..] == s[1..][j..];
    assert s[..i + 1] == [s[0]] + s[1..][..i];
    AllSpaceConcat([s[0]], s[1..][..i]);
  }

  /** A trim of `s` without its last character cut at `i..j` is `s` cut there when that character is whitespace. */
  lemma InfixBeforeBack(s: string, i: nat, j: nat)
    requires |s| > 0 && IsSpace(s[|s| - 1]) && i <= j <= |s| - 1
    requires AllSpace(s[..|s| - 1][..i]) && AllSpace(s[..|s| - 1][j..])
    ensures s[..|s| - 1][i..j] == s[i..j]
    ensures AllSpace(s[..i]) && AllSpace(s[j..])
  {
    var t := s[..|s| - 1];
    assert s[..i] == t[..i];
    assert s[j..] == t[j..] + [s[|s| - 1]];
    AllSpaceConcat(t[j..], [s[|s| - 1]]);
  }

  /** A concatenation is all whitespace exactly when both parts are. */
  lemma AllSpaceConcat(a: string, b: string)
    ensures AllSpace(a + b) <==> AllSpace(a) && AllSpace(b)
  {
    assert forall k :: 0 <= k < |a| ==> (a + b)[k] == a[k];
    assert forall k :: 0 <= k < |b| ==> (a + b)[|a| + k] == b[k];
  }

  /** Trimming adds no character. */
  lemma {:induction false} StripAddsNothing(s: string, c: char)
    requires c !in s
    ensures c !in Strip(s)
    decreases |s|
  {
    if |s| > 0 && IsSpace(s[0]) {
      StripAddsNothing(s[1..], c);
    } else if |s| > 0 && IsSpace(s[|s| - 1]) {
      assert forall i :: 0 <= i < |s| - 1 ==> s[..|s| - 1][i] == s[i];
      StripAddsNothing(s[..|s| - 1], c);
    }
  }

  /**
   `sep.join(parts)`: the parts with `sep` between consecutive ones; the
   join of no parts is empty.
   */
  function Join<T>(sep: seq<T>, parts: seq<seq<T>>): (r: seq<T>)
    ensures |parts| == 1 ==> r == parts[0]
    decreases |parts|
  {
    if |parts| == 0 then []
    else if |parts| == 1 then parts[0]
    else parts[0] + sep + Join(sep, parts[1..])
  }

  /**
   `s.split(d)` for a single-character separator: the maximal runs of
   characters between occurrences of `d`. There is always at least one
   segment (the empty string splits into `[""]`) and no segment contains `d`.
   */
  function Split(s: string, d: char): (r: seq<string>)
    ensures |r| >= 1
    ensures forall i :: 0 <= i < |r| ==> d !in r[i]
    decreases |s|
  {
    if |s| == 0 then [""]
    else
      var rest := Split(s[1..], d);
      if s[0] == d then [""] + rest
      else [[s[0]] + rest[0]] + rest[1..]
  }

  /** Joining the segments with the separator gives back the original string. */
  lemma {:induction false} JoinSplit(s: string, d: char)
    ensures Join([d], Split(s, d)) == s
    decreases |s|
  {
    if |s| > 0 {
      var rest := Split(s[1..], d);
      JoinSplit(s[1..], d);
      assert s == [s[0]] + s[1..];
      if s[0] != d && |rest| > 1 {
        var r := Split(s, d);
        assert r[1..] == rest[1..];
        calc {
          Join([d], r);
          r[0] + [d] + Join([d], rest[1..]);
          [s[0]] + (rest[0] + [d] + Join([d], rest[1..]));
          [s[0]] + Join([d], rest);
        }
      }
    }
  }

  /** A string without the separator is a single segment. */
  lemma {:induction false} SplitWithoutSeparator(a: string, d: char)
    requires d !in a
    ensures Split(a, d) == [a]
    decreases |a|
  {
    if |a| > 0 {
      SplitWithoutSeparator(a[1..], d);
      assert a == [a[0]] + a[1..];
    }
  }

  /** A separator-free first segment is split off intact. */
  lemma {:induction false} SplitAfterSegment(a: string, b: string, d: char)
    requires d !in a
    ensures Split(a + [d] + b, d) == [a] + Split(b, d)
    decreases |a|
  {
    if |a| == 0 {
      assert a + [d] + b == [d] + b;
      assert ([d] + b)[1..] == b;
    } else {
      var s := a + [d] + b;
      assert s[1..] == a[1..] + [d] + b;
      SplitAfterSegment(a[1..], b, d);
      assert a == [a[0]] + a[1..];
    }
  }

  /**
   Splitting a join of separator-free parts gives back the parts, provided
   there is at least one part (the join of no parts is `""`, which splits
   into one empty segment).
   */
  lemma {:induction false} SplitJoin(parts: seq<string>, d: char)
    requires |parts| >= 1
    requires forall i :: 0 <= i < |parts| ==> d !in parts[i]
    ensures Split(Join([d], parts), d) == parts
    decreases |parts|
  {
    if |parts| == 1 {
      SplitWithoutSeparator(parts[0], d);
    } else {
      SplitJoin(parts[1..], d);
      SplitAfterSegment(parts[0], Join([d], parts[1..]), d);
      assert parts == [parts[0]] + parts[1..];
    }
  }

  /** There is one segment more than there are separators. */
  lemma {:induction false} SplitSegmentCount(s: string, d: char)
    ensures |Split(s, d)| == CountOf(s, d) + 1
    decreases |s|
  {
    if |s| > 0 {
      SplitSegmentCount(s[1..], d);
      CountOfCons(s, d);
    }
  }

  /** `c.lower()` on the ASCII range: `A`..`Z` map to `a`..`z`. */
  function LowerChar(c: char): (r: char)
    ensures 'A' <= c <= 'Z' ==> 'a' <= r <= 'z' && r as int - 'a' as int == c as int - 'A' as int
    ensures !('A' <= c <= 'Z') ==> r == c
  {
    if 'A' <= c <= 'Z' then (c as int - 'A' as int + 'a' as int) as char else c
  }

  /** `s.lower()`, character by character (ASCII letters only). */
  function Lower(s: string): (r: string)
    ensures |r| == |s|
    ensures forall i :: 0 <= i < |s| ==> r[i] == LowerChar(s[i])
    ensures forall i :: 0 <= i < |r| ==> !('A' <= r[i] <= 'Z')
  {
    seq(|s|, i requires 0 <= i < |s| => LowerChar(s[i]))
  }

  /** Lower-casing twice is the same as once. */
  lemma LowerIdempotent(s: string)
    ensures Lower(Lower(s)) == Lower(s)
  {
  }
}

=== FILE: tally.dfy ===
/**
 The results-page tally: one pass over a poll's responses filling three
 maps keyed by the poll's options, namely the vote count, the count per
 sentiment label, and the non-empty reasons in response order.
 */
module Tally {
  import opened Seqs
  import opened Analysis
  import opened Models

  /** The `{"Positive": _, "Negative": _, "Neutral": _}` counters of one option. */
  datatype Buckets = Buckets(positive: nat, negative: nat, neutral: nat) {
    function Get(s: Sentiment): nat {
      match s
      case Positive => positive
      case Negative => negative
      case Neutral => neutral
    }

    /** The counters with one more vote for `s`. */
    function Inc(s: Sentiment): (b: Buckets)
      ensures b.Get(s) == Get(s) + 1
      ensures forall s' :: s' != s ==> b.Get(s') == Get(s')
    {
      match s
      case Positive => this.(positive := positive + 1)
      case Negative => this.(negative := negative + 1)
      case Neutral => this.(neutral := neutral + 1)
    }

    function Total(): nat {
      positive + negative + neutral
    }
  }

  datatype Tally = Tally(
    votes: map<string, nat>,
    sentiments: map<string, Buckets>,
    reasons: map<string, seq<string>>)

  /** All three maps have exactly the listed options as keys. */
  ghost predicate KeyedBy(t: Tally, options: seq<string>) {
    && (forall o :: o in t.votes <==> o in options)
    && (forall o :: o in t.sentiments <==> o in options)
    && (forall o :: o in t.reasons <==> o in options)
  }

  /** The three dictionary comprehensions before any response is read. */
  function Init(options: seq<string>): (t: Tally)
    ensures KeyedBy(t, options)
    ensures forall o :: o in options ==>
      t.votes[o] == 0 && t.sentiments[o] == Buckets(0, 0, 0) && t.reasons[o] == []
  {
    Tally(map o | o in options :: 0,
          map o | o in options :: Buckets(0, 0, 0),
          map o | o in options :: [])
  }

  /**
   One turn of the loop. A response whose option is not listed changes
   nothing; otherwise only that option's entries change.
   */
  function Record(t: Tally, options: seq<string>, r: Response): (t': Tally)
    requires KeyedBy(t, options)
    ensures KeyedBy(t', options)
    ensures r.selectedOption !in options ==> t' == t
    ensures forall o :: o in options && o != r.selectedOption ==>
      t'.votes[o] == t.votes[o] && t'.sentiments[o] == t.sentiments[o] && t'.reasons[o] == t.reasons[o]
  {
    var o := r.selectedOption;
    if o in options then
      Tally(t.votes[o := t.votes[o] + 1],
            t.sentiments[o := t.sentiments[o].Inc(r.sentiment)],
            if r.reason != [] then t.reasons[o := t.reasons[o] + [r.reason]] else t.reasons)
    else t
  }

  /** How many responses chose `o`. */
  function VotesFor(rs: seq<Response>, o: string): (n: nat)
    ensures n <= |rs|
    decreases |rs|
  {
    if |rs| == 0 then 0
    else VotesFor(rs[..|rs| - 1], o) + (if rs[|rs| - 1].selectedOption == o then 1 else 0)
  }

  /** How many responses chose `o` with a reason labelled `s`. */
  function SentimentVotes(rs: seq<Response>, o: string, s: Sentiment): (n: nat)
    ensures n <= VotesFor(rs, o)
    decreases |rs|
  {
    if |rs| == 0 then 0
    else
      var last := rs[|rs| - 1];
      SentimentVotes(rs[..|rs| - 1], o, s) + (if last.selectedOption == o && last.sentiment == s then 1 else 0)
  }

  /** The non-empty reasons of the responses that chose `o`, in response order. */
  function ReasonsFor(rs: seq<Response>, o: string): (reasons: seq<string>)
    ensures |reasons| <= VotesFor(rs, o)
    ensures forall i :: 0 <= i < |reasons| ==> reasons[i] != []
    decreases |rs|
  {
    if |rs| == 0 then []
    else
      var last := rs[|rs| - 1];
      ReasonsFor(rs[..|rs| - 1], o) + (if last.selectedOption == o && last.reason != [] then [last.reason] else [])
  }

  /** How many responses chose one of the listed options. */
  function ListedCount(rs: seq<Response>, options: seq<string>): (n: nat)
    ensures n <= |rs|
    decreases |rs|
  {
    if |rs| == 0 then 0
    else ListedCount(rs[..|rs| - 1], options) + (if rs[|rs| - 1].selectedOption in options then 1 else 0)
  }

  /** Every response has one of the three labels, so the labels partition an option's votes. */
  lemma {:induction false} SentimentsPartitionVotes(rs: seq<Response>, o: string)
    ensures SentimentVotes(rs, o, Positive) + SentimentVotes(rs, o, Negative) + SentimentVotes(rs, o, Neutral)
            == VotesFor(rs, o)
    decreases |rs|
  {
    if |rs| > 0 {
      SentimentsPartitionVotes(rs[..|rs| - 1], o);
    }
  }

  /** The sum of `m` over the keys `keys`. */
  function SumOver(m: map<string, nat>, keys: seq<string>): nat
    requires forall i :: 0 <= i < |keys| ==> keys[i] in m
    decreases |keys|
  {
    if |keys| == 0 then 0 else m[keys[0]] + SumOver(m, keys[1..])
  }

  /** Adding one to a key adds one to a sum that counts that key once. */
  lemma {:induction false} SumOverIncrement(m: map<string, nat>, keys: seq<string>, k: string)
    requires forall i :: 0 <= i < |keys| ==> keys[i] in m
    requires NoDup(keys) && k in m
    ensures SumOver(m[k := m[k] + 1], keys) == SumOver(m, keys) + (if k in keys then 1 else 0)
    decreases |keys|
  {
    if |keys| > 0 {
      SumOverIncrement(m, keys[1..], k);
      assert k in keys[1..] ==> keys[0] != k;
    }
  }

  /** The maps agree with the reference counts over `rs`. */
  ghost predicate Matches(t: Tally, options: seq<string>, rs: seq<Response>) {
    && KeyedBy(t, options)
    && (forall o :: o in options ==> t.votes[o] == VotesFor(rs, o))
    && (forall o, s :: o in options ==> t.sentiments[o].Get(s) == SentimentVotes(rs, o, s))
    && (forall o :: o in options ==> t.reasons[o] == ReasonsFor(rs, o))
  }

  /** Recording one more response keeps the maps in step with the reference counts. */
  lemma {:induction false} RecordMatches(t: Tally, options: seq<string>, rs: seq<Response>, r: Response)
    requires Matches(t, options, rs)
    ensures Matches(Record(t, options, r), options, rs + [r])
  {
    var rs' := rs + [r];
    assert rs'[..|rs'| - 1] == rs;
    RecordVotes(t, options, rs, r);
    RecordSentiments(t, options, rs, r);
    RecordReasons(t, options, rs, r);
  }

  lemma {:induction false} RecordVotes(t: Tally, options: seq<string>, rs: seq<Response>, r: Response)
    requires KeyedBy(t, options)
    requires forall o :: o in options ==> t.votes[o] == VotesFor(rs, o)
    ensures forall o :: o in options ==> Record(t, options, r).votes[o] == VotesFor(rs + [r], o)
  {
    var rs' := rs + [r];
    assert rs'[..|rs'| - 1] == rs;
  }

  lemma {:induction false} RecordSentiments(t: Tally, options: seq<string>, rs: seq<Response>, r: Response)
    requires KeyedBy(t, options)
    requires forall o, s :: o in options ==> t.sentiments[o].Get(s) == SentimentVotes(rs, o, s)
    ensures forall o, s :: o in options ==>
      Record(t, options, r).sentiments[o].Get(s) == SentimentVotes(rs + [r], o, s)
  {
    var rs' := rs + [r];
    assert rs'[..|rs'| - 1] == rs;
  }

  lemma {:induction false} RecordReasons(t: Tally, options: seq<string>, rs: seq<Response>, r: Response)
    requires KeyedBy(t, options)
    requires forall o :: o in options ==> t.reasons[o] == ReasonsFor(rs, o)
    ensures forall o :: o in options ==> Record(t, options, r).reasons[o] == ReasonsFor(rs + [r], o)
  {
    var rs' := rs + [r];
    assert rs'[..|rs'| - 1] == rs;
  }

  /**
   `results`' loop over the responses. The maps agree with the reference
   counts above; each option's sentiment counters add up to its votes;
   and the votes add up to the number of responses naming a listed option,
   which is at most the number of responses.
   */
  method TallyResponses(options: seq<string>, rs: seq<Response>) returns (t: Tally)
    ensures KeyedBy(t, options)
    ensures forall o :: o in options ==> t.votes[o] == VotesFor(rs, o)
    ensures forall o, s :: o in options ==> t.sentiments[o].Get(s) == SentimentVotes(rs, o, s)
    ensures forall o :: o in options ==> t.reasons[o] == ReasonsFor(rs, o)
    ensures forall o :: o in options ==> t.sentiments[o].Total() == t.votes[o]
    ensures SumOver(t.votes, Dedupe(options)) == ListedCount(rs, options)
  {
    t := Init(options);
    ZeroSum(t.votes, Dedupe(options));
    for i := 0 to |rs|
      invariant Counted(t, options, rs[..i])
    {
      TallyStep(t, options, rs, i);
      t := Record(t, options, rs[i]);
    }
    assert rs[..|rs|] == rs;
    forall o | o in options
      ensures t.sentiments[o].Total() == t.votes[o]
    {
      SentimentsPartitionVotes(rs, o);
    }
  }

  /** The loop invariant: the maps match the reference counts and the votes add up. */
  ghost predicate Counted(t: Tally, options: seq<string>, rs: seq<Response>) {
    && Matches(t, options, rs)
    && SumOver(t.votes, Dedupe(options)) == ListedCount(rs, options)
  }

  /** One turn of the loop keeps the invariant. */
  lemma {:induction false} TallyStep(t: Tally, options: seq<string>, rs: seq<Response>, i: nat)
    requires i < |rs| && Counted(t, options, rs[..i])
    ensures Counted(Record(t, options, rs[i]), options, rs[..i + 1])
  {
    assert rs[..i + 1] == rs[..i] + [rs[i]];
    assert ListedCount(rs[..i + 1], options)
        == ListedCount(rs[..i], options) + (if rs[i].selectedOption in options then 1 else 0);
    RecordMatches(t, options, rs[..i], rs[i]);
    RecordCountsListed(t, options, rs[i]);
  }

  /** Recording a response adds one to the vote total exactly when its option is listed. */
  lemma {:induction false} RecordCountsListed(t: Tally, options: seq<string>, r: Response)
    requires KeyedBy(t, options)
    ensures SumOver(Record(t, options, r).votes, Dedupe(options))
            == SumOver(t.votes, Dedupe(options)) + (if r.selectedOption in options then 1 else 0)
  {
    var keys := Dedupe(options);
    var k := r.selectedOption;
    var m := t.votes;
    var m' := Record(t, options, r).votes;
    if k in options {
      assert m' == m[k := m[k] + 1];
      assert k in keys;
      SumOverIncrement(m, keys, k);
    } else {
      assert m' == m;
    }
  }

  /** A map that is zero on every key sums to zero. */
  lemma {:induction false} ZeroSum(m: map<string, nat>, keys: seq<string>)
    requires forall i :: 0 <= i < |keys| ==> keys[i] in m && m[keys[i]] == 0
    ensures SumOver(m, keys) == 0
    decreases |keys|
  {
    if |keys| > 0 {
      ZeroSum(m, keys[1..]);
    }
  }
}
